=== FILE: README.md ===
# LlaMasterKey — a Dafny model of the credential-substituting proxy

LlaMasterKey is a small reverse proxy. Clients hold harmless placeholder tokens
(`openai`, `cohere`, `hugging_face`) and a local endpoint. The proxy maps the
placeholder in the `authorization` header to the operator's real secret and
rewrites the request for the matching upstream. The upstreams are the OpenAI API,
the Cohere API, and the Hugging Face hub, which is served under `/hf`. At start-up
the proxy also resolves its configuration and writes a shell file of `export` lines
that points clients at it.

This project models the decision and rewriting logic as pure functions over
strings and optional values, and proves properties of them:

- `wrappers.dfy` — `Option` (Python's `Optional`).
- `strings.dfy` — Python's `str.split(sep)` and `str.replace(pat, "")`. Both scan
  left to right and match non-overlapping occurrences. Empty split pieces are
  kept. `sep.join(parts)`, which the proxy never calls, is their stated inverse.
- `headers.dfy` — header lists. Names compare case-insensitively and duplicates
  are allowed. Lookup is `headers.get`. Assignment is `headers[name] = value`,
  which replaces the first field of that name, drops later ones, or appends.
- `config.dfy` — `Config.__init__`. The environment wins over the configuration
  file, which wins over the default.
- `envfile.dfy` — `user_env` and `generate_env`, plus a reader that inverts the
  rendering.
- `rewrite.dfy` — the part of `__reverse_proxy` before the network call: path
  stripping, the upstream URL, and the `host` and `authorization` headers.
- `dispatch.dfy` — `catch_all` and `hf_catch_all`. Each classifies a request as
  `Reject(401)`, `Reject(400)` or `Proxy(base, key, strip)`. A token-lookup
  reference (`Resolve` over `GenericRoutes` / `HfRoutes`) is proved to give the
  same decisions.
- `proxy.dfy` — one request end to end, up to the upstream call.

Three behaviours of the code that a reader may not expect, all modelled as written:

- `replace` deletes every occurrence of the strip prefix, not only the first.
- The upstream path is plain concatenation. The base `/v1/` and the inbound
  path `/chat/completions` give `/v1//chat/completions`.
- A placeholder is routed even when its provider's secret is not configured. The
  decision then carries no key, and the inbound `authorization` value is
  forwarded unchanged. It is not rejected with 400.

## Model

| member | source | states |
|---|---|---|
| Strings.Split | LlaMasterKey.py:115 | `split(sep)` yields at least one piece, and joining the pieces with `sep` gives back the original header value |
| Strings.SplitPartsAreFree | LlaMasterKey.py:93 | no piece of `split(sep)` contains the separator |
| Strings.SplitCharCount | LlaMasterKey.py:115-117 | `split(' ')` yields one piece more than the number of spaces, empty pieces included |
| Strings.SplitAroundChar | LlaMasterKey.py:115-121 | `a + " " + b` with no space in `a` or `b` splits into exactly `[a, b]` |
| Strings.RemoveAll | LlaMasterKey.py:138 | `replace(pat, "")` never lengthens the path, and a path without the pattern is unchanged |
| Strings.RemoveAllIsSplitJoin | LlaMasterKey.py:138 | for a non-empty pattern, `replace(pat, "")` equals joining the pieces of `split(pat)` with nothing, so every occurrence is deleted |
| Strings.RemoveAllLeading | LlaMasterKey.py:138 | `pat + rest`, with no `pat` in `rest`, loses exactly the leading `pat` |
| Headers.Get | LlaMasterKey.py:110 | `headers.get(name)` finds a value exactly when some field has that name, under any capitalisation |
| Headers.GetIsFirst | LlaMasterKey.py:110 | the value found is that of the first field with the name: no earlier field has it |
| Headers.Set | LlaMasterKey.py:141-144 | after assignment the name reads back the new value, exactly one field has that name, and the fields under other names are the same list as before |
| Headers.SetKeepsOthers | LlaMasterKey.py:141-144 | assigning one header leaves every differently named header's value unchanged |
| Headers.SetKeepsOtherCounts | LlaMasterKey.py:141-144 | assigning one header leaves the number of fields under every other name unchanged |
| Headers.SetAnySpelling | LlaMasterKey.py:141-144 | an assigned header is read back under any capitalisation of its name |
| Wrappers.OrElse | LlaMasterKey.py:36-38 | a setting falls back to the file only when the environment has none; it is absent only when both are |
| Config.Resolve | LlaMasterKey.py:36-39 | one setting is the environment value when set, even if empty; else the file value; else absent |
| Config.Load | LlaMasterKey.py:29-49 | `BASE_URL` is the environment value, else the file value, else `http://127.0.0.1:8000`; each key follows the same precedence with no default |
| Config.FileOnlyFillsGaps | LlaMasterKey.py:29-49 | when the environment sets every variable, the configuration file has no effect |
| Config.Defaults | LlaMasterKey.py:33 | with neither source, the base URL is the local default and every key is absent |
| EnvFile.UserEnv | LlaMasterKey.py:65-75 | `user_env` holds two entries per enabled provider, at most six, and is empty exactly when no secret is present and non-empty |
| EnvFile.UserEnvContents | LlaMasterKey.py:65-75 | each provider's endpoint and placeholder are exported iff its secret is present and non-empty; the endpoint is the base URL, with `/hf` appended for the hub; the placeholders are `openai`, `cohere`, `hugging_face` |
| EnvFile.UserEnvEntries | LlaMasterKey.py:65-75 | `user_env` holds only the six possible entries: the two endpoints with the base URL, the hub endpoint with `/hf` appended, and the three placeholders |
| EnvFile.UserEnvDistinct | LlaMasterKey.py:65 | no key appears twice in `user_env` |
| EnvFile.GenerateEnv | LlaMasterKey.py:53-62 | the rendering is empty exactly when there are no entries; otherwise it starts with the first entry's `export K="V"` line and ends with a newline |
| EnvFile.GenerateEnvAppend | LlaMasterKey.py:58-62 | rendering is line by line in insertion order: rendering a concatenation is concatenating the renderings |
| EnvFile.GenerateEnvLines | LlaMasterKey.py:58-62 | for entries without newlines, the rendering is exactly one `export K="V"` line per entry, each newline-terminated, and nothing else |
| EnvFile.ParseLineText | LlaMasterKey.py:60 | one `export K="V"` line reads back as its entry when the key has no `=` |
| EnvFile.ParseGenerated | LlaMasterKey.py:53-62 | reading a generated file with `ParseEnv` gives back the entries it was generated from, when no key holds `=` and nothing holds a newline |
| EnvFile.UserEnvRoundTrip | LlaMasterKey.py:65-78 | the start-up file reads back by `ParseEnv` as `user_env` whenever the base URL is one line |
| Rewrite.StripPath | LlaMasterKey.py:136-138 | without a prefix the path is unchanged; with one, every occurrence is removed (the split-join form), and a path without the prefix is unchanged |
| Rewrite.RewriteRequest | LlaMasterKey.py:134-140 | the method and query are copied; the scheme and netloc are the upstream's; the path is the upstream base path followed by the stripped path |
| Rewrite.RewriteHeaders | LlaMasterKey.py:141-144 | the outbound `host` is the upstream netloc in exactly one field, whatever came in; with a key, exactly one `authorization` field remains and it is `Bearer <key>`, so every inbound one is replaced; without a key, every field other than `host` — all inbound `authorization` fields among them — is kept, in order and with its value |
| Rewrite.RewriteKeepsOthers | LlaMasterKey.py:141-144 | every header other than `host` and `authorization` keeps its inbound value |
| Rewrite.RewriteKeepsOtherFields | LlaMasterKey.py:141-144 | apart from `host` and `authorization`, the outbound fields are the inbound ones, in the same order and with duplicates |
| Rewrite.StripAgreesOnPlainPaths | LlaMasterKey.py:136-138 | on `/hf` followed by a remainder free of `/hf`, removing every occurrence and removing the leading prefix agree |
| Rewrite.StripManglesOwner | LlaMasterKey.py:138 | as written, `/hf/api/models/hf-internal-testing/tiny` is stripped to `/api/models-internal-testing/tiny`; removing only the leading prefix gives `/api/models/hf-internal-testing/tiny` |
| Rewrite.StripCanLeavePrefix | LlaMasterKey.py:138 | the stripped path can still contain the prefix: `/h/hff` becomes `/hf` |
| Rewrite.StripLeading | LlaMasterKey.py:86-91 | the corrected stripping: the prefix followed by the result is the original path, and a path without the leading prefix is unchanged |
| Dispatch.UpstreamTexts | LlaMasterKey.py:91-127 | the parsed upstream bases spell out `https://api.openai.com/v1/`, `https://api.cohere.ai` and `https://huggingface.co` |
| Dispatch.CatchAll | LlaMasterKey.py:108-131 | without `authorization` the generic route answers 401; it only ever rejects with 401 or 400; it only ever proxies to OpenAI with the OpenAI secret or to Cohere with the Cohere secret, never stripping |
| Dispatch.HfCatchAll | LlaMasterKey.py:86-105 | without `authorization` the hub route proxies anonymously with `/hf` stripped; it only ever rejects with 401 or 400; once a header is sent it only ever proxies with the hub secret |
| Dispatch.Handle | LlaMasterKey.py:86-131 | the decision is the receiving catch-all's decision on the first `authorization` field, so a later field is never read; every rejection is 401 or 400; the generic route proxies only to OpenAI or Cohere without stripping, the hub route only to the hub stripping `/hf` |
| Dispatch.TwoPartsIffOneSpace | LlaMasterKey.py:93-99 | a header splits into exactly two parts iff it holds exactly one space, and the parts then surround that space |
| Dispatch.CatchAllUnauthorized | LlaMasterKey.py:110-119 | the generic route answers 401 iff the header is missing or does not hold exactly one space |
| Dispatch.CatchAllResolvesToken | LlaMasterKey.py:121-131 | on a well-formed header the generic decision equals the exact lookup of the token among its routes, and 400 when none matches |
| Dispatch.CatchAllIgnoresScheme | LlaMasterKey.py:121-131 | the scheme part never changes the generic decision |
| Dispatch.CatchAllTokens | LlaMasterKey.py:123-131 | `openai` proxies to `https://api.openai.com/v1/` with the OpenAI key, and `cohere` to `https://api.cohere.ai` with the Cohere key; neither strips a prefix; any other token gets 400 |
| Dispatch.HfCatchAllUnauthorized | LlaMasterKey.py:89-97 | the hub route answers 401 iff a header is present without exactly one space |
| Dispatch.HfCatchAllResolvesToken | LlaMasterKey.py:99-105 | on a well-formed header the hub decision is the lookup among the hub's own routes, with `/hf` stripped |
| Dispatch.HfCatchAllTokens | LlaMasterKey.py:89-105 | without a header the hub route proxies anonymously with `/hf` stripped; `hugging_face` proxies with the hub key; any other token gets 400 |
| Dispatch.HfRejectsOtherProviders | LlaMasterKey.py:99-103 | a token the generic route proxies (`openai`, `cohere`) gets 400 on the hub route |
| Proxy.Serve | LlaMasterKey.py:86-144 | a method other than GET, POST or HEAD is answered 405; otherwise the request is forwarded exactly when the handler proxies, a rejection carries the handler's status, and a forwarded request keeps its method and query and goes to the decided upstream with `host` set to it |
| Proxy.GenericNeedsAuthorization | LlaMasterKey.py:108-113 | without `authorization` the generic route forwards nothing and answers 401 (405 for an unregistered method) |
| Proxy.GenericRejections | LlaMasterKey.py:108-131 | on a route method the generic route answers 401 exactly when the first `authorization` field is missing or does not hold exactly one space, and 400 when it is `<scheme> <token>` with a token other than `openai` and `cohere` |
| Proxy.HfRejections | LlaMasterKey.py:86-105 | on a route method the hub route answers 401 exactly when the first `authorization` field is present without exactly one space, and 400 when it is `<scheme> <token>` with a token other than `hugging_face` |
| Proxy.OpenAiRequest | LlaMasterKey.py:123-144 | an `openai` request goes to `https://api.openai.com` at `/v1/` + path with its query; `authorization` is `Bearer <secret>` when the secret is configured, and the inbound value otherwise |
| Proxy.CohereRequest | LlaMasterKey.py:126-144 | a `cohere` request goes to `https://api.cohere.ai` at the inbound path with its query; `authorization` is `Bearer <secret>` when the secret is configured, and the inbound value otherwise |
| Proxy.HfAnonymousRequest | LlaMasterKey.py:89-144 | every anonymous hub request goes to `huggingface.co` at its path with every `/hf` deleted, with its query, and with no `authorization` header |
| Proxy.HfAnonymousPlainPath | LlaMasterKey.py:89-91 | an anonymous `/hf<rest>` request, with no `/hf` in `<rest>`, goes to `huggingface.co` at exactly `<rest>` |
| Proxy.HfKeyedRequest | LlaMasterKey.py:99-144 | a `hugging_face` request goes to `huggingface.co` at its path with every `/hf` deleted; `authorization` is `Bearer <secret>` when the secret is configured, and the inbound value otherwise |
| Proxy.SecretReplacesPlaceholder | LlaMasterKey.py:143-144 | whenever a request is forwarded with a key, the placeholder never reaches the upstream: the one and only outbound `authorization` field is `Bearer <key>` |
| Proxy.ExportedPlaceholdersRoute | LlaMasterKey.py:67-127 | every placeholder written to the environment file, sent as `Bearer <placeholder>`, is routed with the matching real secret |

## Findings

| source | as written | input that shows it | evidently intended | confidence | as-written member | corrected member |
|---|---|---|---|---|---|---|
| LlaMasterKey.py:138 | `new_path.replace("/hf", "")` deletes every `/hf` in the path, not just the `/hf` mount prefix | path `/hf/api/models/hf-internal-testing/tiny` (a repository owner whose name starts with `hf`) is forwarded as `/api/models-internal-testing/tiny` | remove only the leading `/hf`, giving `/api/models/hf-internal-testing/tiny` | medium; not executed | Rewrite.StripManglesOwner | Rewrite.StripLeading |

`Rewrite.StripLeading` is proved to satisfy `prefix + StripLeading(path, prefix) == path`
whenever `path` starts with `prefix`. `Rewrite.StripAgreesOnPlainPaths` shows that it
agrees with the as-written stripping on every path of the form `/hf` + a remainder
without `/hf`. `Rewrite.StripManglesOwner` shows where the two differ. The request
rewriting (`Rewrite.RewriteRequest`, `Proxy.Serve`) keeps the code's behaviour.

## Left out

- The upstream call itself is not modelled: the httpx client, `build_request` and `send`, streaming of request and response bodies, `BackgroundTask(aclose)`. These are network I/O and resource cleanup in a library whose behaviour is not part of this model.
- FastAPI routing is not modelled. Which handler received a request is an input (`Handler`), so the precedence of `/hf/{path}` over `/{path}` is assumed rather than modelled. Both routes are registered for GET, POST and HEAD only (LlaMasterKey.py:86, 108). The framework's answer to any other method is modelled as a plain 405 in `Proxy.Serve`, without its `allow` header. Status codes are plain integers. `Response` objects are not modelled.
- URL parsing is not modelled. `urlparse` results for the three upstream URLs are written as constants (`Dispatch.OpenAiBase`, `CohereBase`, `HuggingFaceBase`). Serialisation and percent-encoding of `httpx.URL` are not modelled either. The outbound URL stays a (scheme, netloc, path, query) record.
- The header list follows Starlette's `MutableHeaders` semantics, which come from outside this source: assignment replaces the first field, drops later ones, and appends when there is none. Names are lower-cased ASCII. The latin-1 byte encoding is not modelled.
- Configuration I/O is not modelled: reading the JSON5 file, exiting on a parse failure, reading `os.environ`, writing `generated-keys.env`, and every `print`. The environment and the file arrive as maps of strings. A JSON `null` counts as an absent key. Non-string JSON values are not modelled.
- Concurrency between requests and the shared async client are not modelled.
- `Strings.RemoveAll` models `replace(pat, "")` only, because that is the one replacement the proxy performs. A non-empty replacement string is not modelled.
- Rewrite.StripPath: does not promise that the result is free of the prefix, because the code does not ensure it. Deletions can join into a new occurrence (`Rewrite.StripCanLeavePrefix`). What is proved instead: each piece between deleted occurrences is free of it (`Strings.SplitPartsAreFree`), and a leading prefix before a clean remainder is removed exactly (`Strings.RemoveAllLeading`).
- EnvFile.UserEnvRoundTrip: the file is proved to read back only through this model's `ParseEnv`. What bash makes of it on `source` is not modelled. Inside double quotes, bash expands `$`, backquotes and backslashes, and a `"` in a value ends the quoting. `generate_env` escapes none of these (LlaMasterKey.py:60).
- Proxy.Serve: the checks and normalisation that `httpx.URL` applies when the outbound URL is built (LlaMasterKey.py:139-140) are not modelled. `httpx.URL` may refuse a path that does not start with `/` or a query that is not ASCII, and it normalises dot segments. `Serve` forwards such requests with the path and query exactly as computed.

=== FILE: config.dfy ===
/**
 * Configuration precedence: each setting is read from the process environment, then
 * from the JSON5 configuration file, then from its default. Both sources are given as
 * already-read maps from variable name to string value.
 */
module Config {
  import opened Wrappers

  const DefaultBaseUrl: string := "http://127.0.0.1:8000"

  const BaseUrlVar: string := "BASE_URL"
  const OpenAiKeyVar: string := "OPENAI_API_KEY"
  const CohereKeyVar: string := "CO_API_KEY"
  const HfKeyVar: string := "HF_API_KEY"

  /** The placeholder tokens handed to clients in place of the real secrets. */
  const OpenAiToken: string := "openai"
  const CohereToken: string := "cohere"
  const HfToken: string := "hugging_face"

  /** Path prefix under which the Hugging Face hub is served. */
  const HfPrefix: string := "/hf"

  /** The resolved configuration: the public base URL and one optional secret per provider. */
  datatype Settings = Settings(
    baseUrl: string,
    openAiKey: Option<string>,
    cohereKey: Option<string>,
    hfKey: Option<string>)

  /** `m.get(name)`: the value under `name`, absent when there is none. */
  function Lookup(m: map<string, string>, name: string): Option<string> {
    if name in m then Some(m[name]) else None
  }

  /**
   * `v` is what the precedence rule yields for `name`: the environment value when the
   * environment has one, else the file value, else nothing.
   */
  ghost predicate Precedence(env: map<string, string>, file: map<string, string>, name: string, v: Option<string>) {
    && (name in env ==> v == Some(env[name]))
    && (name !in env && name in file ==> v == Some(file[name]))
    && (name !in env && name !in file ==> v == None)
  }

  /** One setting: the environment value, else the file value (absent when neither has it). */
  function Resolve(env: map<string, string>, file: map<string, string>, name: string): (r: Option<string>)
    ensures Precedence(env, file, name, r)
  {
    OrElse(Lookup(env, name), Lookup(file, name))
  }

  /** The configuration built from the environment and the configuration file. */
  function Load(env: map<string, string>, file: map<string, string>): (s: Settings)
    ensures BaseUrlVar in env ==> s.baseUrl == env[BaseUrlVar]
    ensures BaseUrlVar !in env && BaseUrlVar in file ==> s.baseUrl == file[BaseUrlVar]
    ensures BaseUrlVar !in env && BaseUrlVar !in file ==> s.baseUrl == DefaultBaseUrl
    ensures Precedence(env, file, OpenAiKeyVar, s.openAiKey)
    ensures Precedence(env, file, CohereKeyVar, s.cohereKey)
    ensures Precedence(env, file, HfKeyVar, s.hfKey)
  {
    Settings(
      Resolve(env, file, BaseUrlVar).GetOr(DefaultBaseUrl),
      Resolve(env, file, OpenAiKeyVar),
      Resolve(env, file, CohereKeyVar),
      Resolve(env, file, HfKeyVar))
  }

  /** The configuration file only matters for variables the environment leaves unset. */
  lemma FileOnlyFillsGaps(env: map<string, string>, file1: map<string, string>, file2: map<string, string>)
    requires BaseUrlVar in env && OpenAiKeyVar in env && CohereKeyVar in env && HfKeyVar in env
    ensures Load(env, file1) == Load(env, file2)
  {
  }

  /** With neither source, the base URL is the local default and every key is absent. */
  lemma Defaults()
    ensures Load(map[], map[]) == Settings(DefaultBaseUrl, None, None, None)
  {
  }
}

=== FILE: dispatch.dfy ===
/**
 * The two request handlers: the generic catch-all, which routes on the placeholder
 * token, and the Hugging Face catch-all mounted under `/hf`, which also serves
 * anonymous requests. Each classifies a request into a local rejection or a proxy
 * decision (upstream, optional secret, optional strip prefix).
 */
module Dispatch {
  import opened Wrappers
  import opened Strings
  import opened Headers
  import opened Config
  import opened Rewrite

  const Unauthorized: int := 401
  const BadRequest: int := 400

  /** The parsed upstream base URLs. */
  const OpenAiBase: BaseUrl := BaseUrl("https", "api.openai.com", "/v1/")
  const CohereBase: BaseUrl := BaseUrl("https", "api.cohere.ai", "")
  const HuggingFaceBase: BaseUrl := BaseUrl("https", "huggingface.co", "")

  /** The parsed bases are the upstream URLs the handlers name. */
  lemma UpstreamTexts()
    ensures BaseText(OpenAiBase) == "https://api.openai.com/v1/"
    ensures BaseText(CohereBase) == "https://api.cohere.ai"
    ensures BaseText(HuggingFaceBase) == "https://huggingface.co"
  {
    // Proof scaffolding: each step spells out one concatenation of string literals.
    assert "https" + "://" == "https://";
    assert "https://" + "api.openai.com" == "https://api.openai.com";
    assert "https://api.openai.com" + "/v1/" == "https://api.openai.com/v1/";
    assert "https://" + "api.cohere.ai" == "https://api.cohere.ai";
    assert "https://" + "huggingface.co" == "https://huggingface.co";
  }

  /** What a handler decides: reject locally with a status, or proxy. */
  datatype Outcome =
    | Reject(status: int)
    | Proxy(base: BaseUrl, key: Option<string>, strip: Option<string>)

  /** Which handler received the request. */
  datatype Handler = Generic | HuggingFace

  /**
   * Generic catch-all: requires `authorization: <scheme> <token>` and routes on the token.
   * A missing header is a 401; every rejection is a 401 or a 400; every proxy decision
   * goes, without stripping, to OpenAI with the OpenAI secret or to Cohere with the Cohere
   * secret.
   */
  function CatchAll(cfg: Settings, authorization: Option<string>): (r: Outcome)
    ensures authorization.None? ==> r == Reject(Unauthorized)
    ensures r.Reject? ==> r.status in {Unauthorized, BadRequest}
    ensures r.Proxy? ==> r == Proxy(OpenAiBase, cfg.openAiKey, None) || r == Proxy(CohereBase, cfg.cohereKey, None)
  {
    if authorization.None? then Reject(Unauthorized)
    else
      var parts := Split(authorization.value, " ");
      if |parts| != 2 then Reject(Unauthorized)
      else if parts[1] == OpenAiToken then Proxy(OpenAiBase, cfg.openAiKey, None)
      else if parts[1] == CohereToken then Proxy(CohereBase, cfg.cohereKey, None)
      else Reject(BadRequest)
  }

  /**
   * Hugging Face catch-all: anonymous without `authorization`, otherwise only the hub's
   * own token. Every rejection is a 401 or a 400; every proxy decision goes to the hub
   * with `/hf` stripped, carrying the hub secret whenever a header was sent.
   */
  function HfCatchAll(cfg: Settings, authorization: Option<string>): (r: Outcome)
    ensures authorization.None? ==> r == Proxy(HuggingFaceBase, None, Some(HfPrefix))
    ensures r.Reject? ==> r.status in {Unauthorized, BadRequest}
    ensures authorization.Some? && r.Proxy? ==> r == Proxy(HuggingFaceBase, cfg.hfKey, Some(HfPrefix))
  {
    if authorization.None? then Proxy(HuggingFaceBase, None, Some(HfPrefix))
    else
      var parts := Split(authorization.value, " ");
      if |parts| != 2 then Reject(Unauthorized)
      else if parts[1] != HfToken then Reject(BadRequest)
      else Proxy(HuggingFaceBase, cfg.hfKey, Some(HfPrefix))
  }

  /**
   * The decision of the handler that received a request with the given headers. It is
   * the receiving catch-all's decision on the first `authorization` field (later ones are
   * never read); every proxy decision targets one of the three fixed upstreams, and only
   * the hub route strips (`/hf`).
   */
  function Handle(handler: Handler, cfg: Settings, headers: Fields): (r: Outcome)
    ensures r.Reject? ==> r.status in {Unauthorized, BadRequest}
    ensures handler == Generic && r.Proxy? ==> r.base in {OpenAiBase, CohereBase} && r.strip == None
    ensures handler == HuggingFace && r.Proxy? ==> r.base == HuggingFaceBase && r.strip == Some(HfPrefix)
    ensures Get(headers, "authorization").None? ==>
      r == (if handler == Generic then Reject(Unauthorized) else Proxy(HuggingFaceBase, None, Some(HfPrefix)))
    ensures r == (if handler == Generic then CatchAll(cfg, Get(headers, "authorization")) else HfCatchAll(cfg, Get(headers, "authorization")))
  {
    var authorization := Get(headers, "authorization");
    match handler
    case Generic => CatchAll(cfg, authorization)
    case HuggingFace => HfCatchAll(cfg, authorization)
  }

  // A data-driven reference: routes looked up by exact token.

  /** A placeholder token bound to an upstream and its (possibly absent) secret. */
  datatype Route = Route(token: string, base: BaseUrl, key: Option<string>)

  /** The routes of the generic catch-all. */
  function GenericRoutes(cfg: Settings): seq<Route> {
    [Route(OpenAiToken, OpenAiBase, cfg.openAiKey), Route(CohereToken, CohereBase, cfg.cohereKey)]
  }

  /** The routes of the Hugging Face catch-all. */
  function HfRoutes(cfg: Settings): seq<Route> {
    [Route(HfToken, HuggingFaceBase, cfg.hfKey)]
  }

  /** The first route whose token equals `token` exactly. */
  function Resolve(routes: seq<Route>, token: string): (r: Option<Route>)
    ensures r.Some? ==> r.value in routes && r.value.token == token
    ensures r.None? ==> forall i :: 0 <= i < |routes| ==> routes[i].token != token
    decreases |routes|
  {
    if |routes| == 0 then None
    else if routes[0].token == token then Some(routes[0])
    else Resolve(routes[1..], token)
  }

  /** The decision for a resolved (or unresolved) token. */
  function Routed(r: Option<Route>, strip: Option<string>): Outcome {
    match r
    case None => Reject(BadRequest)
    case Some(route) => Proxy(route.base, route.key, strip)
  }

  /**
   * An `authorization` value splits on single spaces into exactly two parts precisely
   * when it holds exactly one space; the parts are then what surrounds that space.
   */
  lemma TwoPartsIffOneSpace(a: string)
    ensures |Split(a, " ")| == 2 <==> CountChar(' ', a) == 1
    ensures |Split(a, " ")| == 2 ==>
      && a == Split(a, " ")[0] + " " + Split(a, " ")[1]
      && ' ' !in Split(a, " ")[0] && ' ' !in Split(a, " ")[1]
  {
    SplitCharCount(a, ' ');
    var parts := Split(a, " ");
    if |parts| == 2 {
      assert parts[1..] == [parts[1]];
      SplitPartsAreFree(a, " ");
      OccursChar(' ', parts[0]);
      OccursChar(' ', parts[1]);
    }
  }

  /** The generic catch-all answers 401 exactly when the header is missing or does not hold exactly one space. */
  lemma CatchAllUnauthorized(cfg: Settings, authorization: Option<string>)
    ensures CatchAll(cfg, authorization) == Reject(Unauthorized)
      <==> authorization.None? || CountChar(' ', authorization.value) != 1
  {
    if authorization.Some? {
      TwoPartsIffOneSpace(authorization.value);
    }
  }

  /**
   * For a well-formed header, the generic catch-all's decision is the lookup of the
   * token among its routes — whatever the scheme — and 400 when the token is unknown.
   */
  lemma CatchAllResolvesToken(cfg: Settings, scheme: string, token: string)
    requires ' ' !in scheme && ' ' !in token
    ensures CatchAll(cfg, Some(scheme + " " + token)) == Routed(Resolve(GenericRoutes(cfg), token), None)
  {
    SplitAroundChar(scheme, ' ', token);
    assert scheme + " " + token == scheme + [' '] + token;
  }

  /** The scheme part of the header never changes the generic catch-all's decision. */
  lemma CatchAllIgnoresScheme(cfg: Settings, scheme1: string, scheme2: string, token: string)
    requires ' ' !in scheme1 && ' ' !in scheme2 && ' ' !in token
    ensures CatchAll(cfg, Some(scheme1 + " " + token)) == CatchAll(cfg, Some(scheme2 + " " + token))
  {
    CatchAllResolvesToken(cfg, scheme1, token);
    CatchAllResolvesToken(cfg, scheme2, token);
  }

  /**
   * On a well-formed header, `openai` and `cohere` proxy to their fixed upstreams with
   * their configured secret and no stripping; every other token is a 400.
   */
  lemma CatchAllTokens(cfg: Settings, scheme: string, token: string)
    requires ' ' !in scheme && ' ' !in token
    ensures token == OpenAiToken ==> CatchAll(cfg, Some(scheme + " " + token)) == Proxy(OpenAiBase, cfg.openAiKey, None)
    ensures token == CohereToken ==> CatchAll(cfg, Some(scheme + " " + token)) == Proxy(CohereBase, cfg.cohereKey, None)
    ensures token != OpenAiToken && token != CohereToken ==> CatchAll(cfg, Some(scheme + " " + token)) == Reject(BadRequest)
  {
    CatchAllResolvesToken(cfg, scheme, token);
  }

  /** The Hugging Face catch-all answers 401 exactly when a header is present without exactly one space. */
  lemma HfCatchAllUnauthorized(cfg: Settings, authorization: Option<string>)
    ensures HfCatchAll(cfg, authorization) == Reject(Unauthorized)
      <==> authorization.Some? && CountChar(' ', authorization.value) != 1
  {
    if authorization.Some? {
      TwoPartsIffOneSpace(authorization.value);
    }
  }

  /** For a well-formed header, the Hugging Face catch-all looks the token up among its own routes only. */
  lemma HfCatchAllResolvesToken(cfg: Settings, scheme: string, token: string)
    requires ' ' !in scheme && ' ' !in token
    ensures HfCatchAll(cfg, Some(scheme + " " + token)) == Routed(Resolve(HfRoutes(cfg), token), Some(HfPrefix))
  {
    SplitAroundChar(scheme, ' ', token);
    assert scheme + " " + token == scheme + [' '] + token;
  }

  /**
   * The Hugging Face catch-all rejects with 400 a token that the generic catch-all
   * accepts: a valid placeholder of another provider does not open the hub route.
   */
  lemma HfRejectsOtherProviders(cfg: Settings, scheme: string, token: string)
    requires ' ' !in scheme && ' ' !in token
    requires CatchAll(cfg, Some(scheme + " " + token)).Proxy?
    ensures HfCatchAll(cfg, Some(scheme + " " + token)) == Reject(BadRequest)
  {
    CatchAllResolvesToken(cfg, scheme, token);
    HfCatchAllResolvesToken(cfg, scheme, token);
  }

  /**
   * The Hugging Face catch-all proxies anonymously without a header, uses the secret
   * for exactly `hugging_face`, and answers 400 for any other token; whenever it
   * proxies it strips `/hf`.
   */
  lemma HfCatchAllTokens(cfg: Settings, scheme: string, token: string)
    requires ' ' !in scheme && ' ' !in token
    ensures HfCatchAll(cfg, None) == Proxy(HuggingFaceBase, None, Some(HfPrefix))
    ensures token == HfToken ==> HfCatchAll(cfg, Some(scheme + " " + token)) == Proxy(HuggingFaceBase, cfg.hfKey, Some(HfPrefix))
    ensures token != HfToken ==> HfCatchAll(cfg, Some(scheme + " " + token)) == Reject(BadRequest)
  {
    HfCatchAllResolvesToken(cfg, scheme, token);
  }
}

=== FILE: envfile.dfy ===
/**
 * The shell environment file written at start-up: which variables a client should
 * export (`user_env`) and their rendering as `export K="V"` lines (`generate_env`).
 * A reading function gives the rendering an inverse.
 */
module EnvFile {
  import opened Wrappers
  import opened Strings
  import opened Config

  /** One exported variable; a sequence of entries is an insertion-ordered dictionary. */
  datatype Entry = Entry(key: string, value: string)

  /** Python truthiness of an optional string: present and non-empty. */
  predicate Truthy(v: Option<string>) {
    v.Some? && v.value != ""
  }

  /** Value of the first entry under `key`. */
  function Find(es: seq<Entry>, key: string): (r: Option<string>)
    ensures r.Some? <==> exists i :: 0 <= i < |es| && es[i].key == key
    decreases |es|
  {
    if |es| == 0 then None
    else if es[0].key == key then Some(es[0].value)
    else
      var r := Find(es[1..], key);
      assert forall i :: 0 < i < |es| ==> es[i] == es[1..][i - 1];
      r
  }

  /** Looking up in a concatenation looks in the first part, then in the second. */
  lemma {:induction false} FindAppend(a: seq<Entry>, b: seq<Entry>, key: string)
    ensures Find(a + b, key) == OrElse(Find(a, key), Find(b, key))
    decreases |a|
  {
    if |a| == 0 {
      assert a + b == b;
    } else {
      FindAppend(a[1..], b, key);
      assert (a + b)[1..] == a[1..] + b;
    }
  }

  /** No key appears twice. */
  predicate DistinctKeys(es: seq<Entry>) {
    forall i, j :: 0 <= i < j < |es| ==> es[i].key != es[j].key
  }

  /** The two entries of one provider — endpoint override then placeholder — when it is enabled. */
  function ProviderEntries(enabled: bool, urlKey: string, url: string, tokenKey: string, token: string): (es: seq<Entry>)
    ensures forall i :: 0 <= i < |es| ==> es[i] == Entry(urlKey, url) || es[i] == Entry(tokenKey, token)
  {
    if enabled then [Entry(urlKey, url), Entry(tokenKey, token)] else []
  }

  /** Lookup in one provider's entries. */
  lemma FindProvider(enabled: bool, urlKey: string, url: string, tokenKey: string, token: string, key: string)
    ensures Find(ProviderEntries(enabled, urlKey, url, tokenKey, token), key) ==
      (if enabled && key == urlKey then Some(url) else if enabled && key == tokenKey then Some(token) else None)
  {
    if enabled {
      var es := [Entry(urlKey, url), Entry(tokenKey, token)];
      assert es[1..] == [Entry(tokenKey, token)];
      assert es[1..][1..] == [];
    }
  }

  /**
   * The variables a client exports to reach the proxy: for each provider whose secret is
   * configured and non-empty, its endpoint override and its placeholder token.
   */
  function UserEnv(s: Settings): (es: seq<Entry>)
    ensures |es| == 2 * ((if Truthy(s.openAiKey) then 1 else 0) + (if Truthy(s.cohereKey) then 1 else 0)
      + (if Truthy(s.hfKey) then 1 else 0))
    ensures |es| == 0 <==> !Truthy(s.openAiKey) && !Truthy(s.cohereKey) && !Truthy(s.hfKey)
  {
    ProviderEntries(Truthy(s.openAiKey), "OPENAI_BASE_URL", s.baseUrl, "OPENAI_API_KEY", OpenAiToken)
    + ProviderEntries(Truthy(s.cohereKey), "CO_API_URL", s.baseUrl, "CO_API_KEY", CohereToken)
    + ProviderEntries(Truthy(s.hfKey), "HF_ENDPOINT", s.baseUrl + HfPrefix, "HF_API_KEY", HfToken)
  }

  /** Looking up `key` in `user_env`: the value of the first provider that exports it. */
  lemma FindUserEnv(s: Settings, key: string)
    ensures Find(UserEnv(s), key) ==
      OrElse(OrElse(
        (if Truthy(s.openAiKey) && key == "OPENAI_BASE_URL" then Some(s.baseUrl)
         else if Truthy(s.openAiKey) && key == "OPENAI_API_KEY" then Some(OpenAiToken) else None),
        (if Truthy(s.cohereKey) && key == "CO_API_URL" then Some(s.baseUrl)
         else if Truthy(s.cohereKey) && key == "CO_API_KEY" then Some(CohereToken) else None)),
        (if Truthy(s.hfKey) && key == "HF_ENDPOINT" then Some(s.baseUrl + HfPrefix)
         else if Truthy(s.hfKey) && key == "HF_API_KEY" then Some(HfToken) else None))
  {
    var openAi := ProviderEntries(Truthy(s.openAiKey), "OPENAI_BASE_URL", s.baseUrl, "OPENAI_API_KEY", OpenAiToken);
    var cohere := ProviderEntries(Truthy(s.cohereKey), "CO_API_URL", s.baseUrl, "CO_API_KEY", CohereToken);
    var hf := ProviderEntries(Truthy(s.hfKey), "HF_ENDPOINT", s.baseUrl + HfPrefix, "HF_API_KEY", HfToken);
    FindProvider(Truthy(s.openAiKey), "OPENAI_BASE_URL", s.baseUrl, "OPENAI_API_KEY", OpenAiToken, key);
    FindProvider(Truthy(s.cohereKey), "CO_API_URL", s.baseUrl, "CO_API_KEY", CohereToken, key);
    FindProvider(Truthy(s.hfKey), "HF_ENDPOINT", s.baseUrl + HfPrefix, "HF_API_KEY", HfToken, key);
    FindAppend(openAi, cohere, key);
    FindAppend(openAi + cohere, hf, key);
  }

  /**
   * Each provider's endpoint override and placeholder are exported exactly when its
   * secret is configured and non-empty; the endpoint is the public base URL, with the
   * Hugging Face prefix for the hub.
   */
  lemma UserEnvContents(s: Settings)
    ensures Find(UserEnv(s), "OPENAI_BASE_URL") == (if Truthy(s.openAiKey) then Some(s.baseUrl) else None)
    ensures Find(UserEnv(s), "OPENAI_API_KEY") == (if Truthy(s.openAiKey) then Some(OpenAiToken) else None)
    ensures Find(UserEnv(s), "CO_API_URL") == (if Truthy(s.cohereKey) then Some(s.baseUrl) else None)
    ensures Find(UserEnv(s), "CO_API_KEY") == (if Truthy(s.cohereKey) then Some(CohereToken) else None)
    ensures Find(UserEnv(s), "HF_ENDPOINT") == (if Truthy(s.hfKey) then Some(s.baseUrl + HfPrefix) else None)
    ensures Find(UserEnv(s), "HF_API_KEY") == (if Truthy(s.hfKey) then Some(HfToken) else None)
  {
    FindUserEnv(s, "OPENAI_BASE_URL");
    FindUserEnv(s, "OPENAI_API_KEY");
    FindUserEnv(s, "CO_API_URL");
    FindUserEnv(s, "CO_API_KEY");
    FindUserEnv(s, "HF_ENDPOINT");
    FindUserEnv(s, "HF_API_KEY");
  }

  /** `user_env` holds only the expected entries. */
  lemma UserEnvEntries(s: Settings)
    ensures forall i :: 0 <= i < |UserEnv(s)| ==> UserEnv(s)[i] in UserEnvCandidates(s)
  {
    var openAi := ProviderEntries(Truthy(s.openAiKey), "OPENAI_BASE_URL", s.baseUrl, "OPENAI_API_KEY", OpenAiToken);
    var cohere := ProviderEntries(Truthy(s.cohereKey), "CO_API_URL", s.baseUrl, "CO_API_KEY", CohereToken);
    var hf := ProviderEntries(Truthy(s.hfKey), "HF_ENDPOINT", s.baseUrl + HfPrefix, "HF_API_KEY", HfToken);
    var es := openAi + cohere + hf;
    forall i | 0 <= i < |es|
      ensures es[i] in UserEnvCandidates(s)
    {
      if i < |openAi| {
        assert es[i] == openAi[i];
      } else if i < |openAi| + |cohere| {
        assert es[i] == cohere[i - |openAi|];
      } else {
        assert es[i] == hf[i - |openAi| - |cohere|];
      }
    }
  }

  /** No key appears twice in `user_env`, as in the dictionary it models. */
  lemma UserEnvDistinct(s: Settings)
    ensures DistinctKeys(UserEnv(s))
  {
  }

  /** Every entry `user_env` can hold for the given settings. */
  function UserEnvCandidates(s: Settings): set<Entry> {
    {Entry("OPENAI_BASE_URL", s.baseUrl), Entry("OPENAI_API_KEY", OpenAiToken),
     Entry("CO_API_URL", s.baseUrl), Entry("CO_API_KEY", CohereToken),
     Entry("HF_ENDPOINT", s.baseUrl + HfPrefix), Entry("HF_API_KEY", HfToken)}
  }

  /** One exported line without its terminating newline: `export K="V"`. */
  function LineText(e: Entry): string {
    "export " + e.key + "=\"" + e.value + "\""
  }

  /**
   * The file contents: one newline-terminated line per entry, in order. The text starts
   * with the first entry's line and, unless empty, ends with a newline.
   */
  function GenerateEnv(es: seq<Entry>): (s: string)
    ensures |es| == 0 <==> s == ""
    ensures |es| > 0 ==> LineText(es[0]) + "\n" <= s && s[|s| - 1] == '\n'
    decreases |es|
  {
    if |es| == 0 then "" else LineText(es[0]) + "\n" + GenerateEnv(es[1..])
  }

  /** Rendering distributes over concatenation of entry lists. */
  lemma {:induction false} GenerateEnvAppend(a: seq<Entry>, b: seq<Entry>)
    ensures GenerateEnv(a + b) == GenerateEnv(a) + GenerateEnv(b)
    decreases |a|
  {
    if |a| > 0 {
      assert (a + b)[1..] == a[1..] + b;
      GenerateEnvAppend(a[1..], b);
    } else {
      assert a + b == b;
    }
  }

  /** An entry whose rendering is a single line. */
  predicate OneLine(e: Entry) {
    '\n' !in e.key && '\n' !in e.value
  }

  /** An entry that is written on one line and can be read back: its key has no `=`. */
  predicate Readable(e: Entry) {
    OneLine(e) && '=' !in e.key
  }

  /** The text lines of the rendering of `es`. */
  function Lines(es: seq<Entry>): (ls: seq<string>)
    ensures |ls| == |es|
  {
    seq(|es|, i requires 0 <= i < |es| => LineText(es[i]))
  }

  /** Split on newlines, the rendering is exactly one line per entry followed by an empty remainder. */
  lemma {:induction false} GenerateEnvLines(es: seq<Entry>)
    requires forall i :: 0 <= i < |es| ==> OneLine(es[i])
    ensures Split(GenerateEnv(es), "\n") == Lines(es) + [""]
    decreases |es|
  {
    if |es| == 0 {
    } else {
      var l := LineText(es[0]);
      assert '\n' !in l by {
        assert l == "export " + es[0].key + "=\"" + es[0].value + "\"";
      }
      GenerateEnvLines(es[1..]);
      assert GenerateEnv(es) == l + ['\n'] + GenerateEnv(es[1..]);
      SplitAtFirstChar(l, '\n', GenerateEnv(es[1..]));
      assert Lines(es) == [l] + Lines(es[1..]);
    }
  }

  /** Index of the first `c` in `s`, if any. */
  function IndexOf(s: string, c: char): (r: Option<nat>)
    ensures r.Some? ==> r.value < |s| && s[r.value] == c && c !in s[..r.value]
    ensures r.None? ==> c !in s
    decreases |s|
  {
    if |s| == 0 then None
    else if s[0] == c then Some(0)
    else match IndexOf(s[1..], c)
      case None => None
      case Some(i) =>
        assert s[..i + 1] == [s[0]] + s[1..][..i];
        Some(i + 1)
  }

  /** Reads one `export K="V"` line back into its entry. */
  function ParseLine(l: string): Option<Entry> {
    if |l| >= 8 && l[..7] == "export " && l[|l| - 1] == '"' then
      var body := l[7..|l| - 1];
      match IndexOf(body, '=')
      case None => None
      case Some(i) =>
        if i + 1 < |body| && body[i + 1] == '"' then Some(Entry(body[..i], body[i + 2..])) else None
    else None
  }

  function ParseLines(ls: seq<string>): Option<seq<Entry>>
    decreases |ls|
  {
    if |ls| == 0 then Some([])
    else match ParseLine(ls[0])
      case None => None
      case Some(e) =>
        match ParseLines(ls[1..])
        case None => None
        case Some(rest) => Some([e] + rest)
  }

  /** Reads a whole generated file back: newline-terminated lines, each `export K="V"`. */
  function ParseEnv(s: string): Option<seq<Entry>> {
    var lines := Split(s, "\n");
    if lines[|lines| - 1] != "" then None else ParseLines(lines[..|lines| - 1])
  }

  /** A line is read back as the entry it was written from. */
  lemma ParseLineText(e: Entry)
    requires '=' !in e.key
    ensures ParseLine(LineText(e)) == Some(e)
  {
    var l := LineText(e);
    var body := e.key + "=\"" + e.value;
    assert l[..7] == "export ";
    assert l[7..|l| - 1] == body;
    assert body[|e.key|] == '=';
    var r := IndexOf(body, '=');
    assert body[..|e.key|] == e.key;
    assert r == Some(|e.key|);
    assert body[|e.key| + 2..] == e.value;
  }

  /** Reading every line of a rendering gives back the entries. */
  lemma {:induction false} ParseLinesOfLines(es: seq<Entry>)
    requires forall i :: 0 <= i < |es| ==> Readable(es[i])
    ensures ParseLines(Lines(es)) == Some(es)
    decreases |es|
  {
    if |es| > 0 {
      assert Readable(es[0]);
      ParseLineText(es[0]);
      assert forall i :: 0 <= i < |es[1..]| ==> es[1..][i] == es[i + 1];
      ParseLinesOfLines(es[1..]);
      var ls := Lines(es);
      assert ls[0] == LineText(es[0]);
      assert ls[1..] == Lines(es[1..]);
      assert [es[0]] + es[1..] == es;
    }
  }

  /** Round trip: a generated file reads back as exactly the entries it was generated from. */
  lemma ParseGenerated(es: seq<Entry>)
    requires forall i :: 0 <= i < |es| ==> Readable(es[i])
    ensures ParseEnv(GenerateEnv(es)) == Some(es)
  {
    GenerateEnvLines(es);
    var lines := Lines(es) + [""];
    assert lines[..|lines| - 1] == Lines(es);
    ParseLinesOfLines(es);
  }

  /** The start-up file always reads back as `user_env`, provided the base URL is a single line. */
  lemma UserEnvRoundTrip(s: Settings)
    requires '\n' !in s.baseUrl
    ensures ParseEnv(GenerateEnv(UserEnv(s))) == Some(UserEnv(s))
  {
    var es := UserEnv(s);
    UserEnvEntries(s);
    CandidatesReadable(s);
    ParseGenerated(es);
  }

  /** Every entry `user_env` can hold is writable on one line and readable back. */
  lemma CandidatesReadable(s: Settings)
    requires '\n' !in s.baseUrl
    ensures forall e :: e in UserEnvCandidates(s) ==> Readable(e)
  {
    assert '\n' !in s.baseUrl + HfPrefix;
    forall e | e in UserEnvCandidates(s)
      ensures Readable(e)
    {
      if e == Entry("OPENAI_BASE_URL", s.baseUrl) {
        ReadableKey("OPENAI_BASE_URL", s.baseUrl);
      } else if e == Entry("OPENAI_API_KEY", OpenAiToken) {
        ReadableKey("OPENAI_API_KEY", OpenAiToken);
      } else if e == Entry("CO_API_URL", s.baseUrl) {
        ReadableKey("CO_API_URL", s.baseUrl);
      } else if e == Entry("CO_API_KEY", CohereToken) {
        ReadableKey("CO_API_KEY", CohereToken);
      } else if e == Entry("HF_ENDPOINT", s.baseUrl + HfPrefix) {
        ReadableKey("HF_ENDPOINT", s.baseUrl + HfPrefix);
      } else {
        ReadableKey("HF_API_KEY", HfToken);
      }
    }
  }

  lemma ReadableKey(key: string, value: string)
    requires forall i :: 0 <= i < |key| ==> 'A' <= key[i] <= 'Z' || key[i] == '_'
    requires '\n' !in value
    ensures Readable(Entry(key, value))
  {
  }
}

=== FILE: headers.dfy ===
/**
 * HTTP header lists as the proxy sees them: an ordered association list whose names
 * compare case-insensitively (ASCII), duplicates allowed. `Get` is `headers.get(name)`
 * and `Set` is `headers[name] = value` on a mutable copy.
 */
module Headers {
  import opened Wrappers

  datatype Field = Field(name: string, value: string)

  type Fields = seq<Field>

  /** ASCII lower-casing of one character. */
  function Lower(c: char): char {
    if 'A' <= c <= 'Z' then (c as int + 32) as char else c
  }

  function LowerStr(s: string): (r: string)
    ensures |r| == |s|
  {
    seq(|s|, i requires 0 <= i < |s| => Lower(s[i]))
  }

  /** Lower-casing a lower-cased name changes nothing. */
  lemma LowerStrIdempotent(s: string)
    ensures LowerStr(LowerStr(s)) == LowerStr(s)
  {
    var l := LowerStr(s);
    forall i | 0 <= i < |s|
      ensures LowerStr(l)[i] == l[i]
    {
      assert l[i] == Lower(s[i]);
    }
  }

  /** Two header names denote the same header. */
  predicate SameName(a: string, b: string) {
    LowerStr(a) == LowerStr(b)
  }

  /** Value of the first field named `name`, if any. */
  function Get(h: Fields, name: string): (r: Option<string>)
    ensures r.Some? <==> Count(h, name) > 0
    decreases |h|
  {
    if |h| == 0 then None
    else if SameName(h[0].name, name) then Some(h[0].value)
    else Get(h[1..], name)
  }

  /** The fields not named `name`, in their original order. */
  function Without(h: Fields, name: string): (r: Fields)
    ensures |r| <= |h|
    ensures forall i :: 0 <= i < |r| ==> !SameName(r[i].name, name)
    decreases |h|
  {
    if |h| == 0 then []
    else if SameName(h[0].name, name) then Without(h[1..], name)
    else [h[0]] + Without(h[1..], name)
  }

  /** Number of fields named `name`. */
  function Count(h: Fields, name: string): nat
    decreases |h|
  {
    if |h| == 0 then 0
    else (if SameName(h[0].name, name) then 1 else 0) + Count(h[1..], name)
  }

  /**
   * `headers[name] = value` on a mutable header list: the first field named `name`
   * is replaced in place, later ones are dropped, and when there is none a field is
   * appended. The stored name is the lower-cased `name`.
   */
  function Set(h: Fields, name: string, value: string): (r: Fields)
    ensures Get(r, name) == Some(value)
    ensures Count(r, name) == 1
    ensures Without(r, name) == Without(h, name)
    ensures |r| == |Without(h, name)| + 1
    decreases |h|
  {
    LowerStrIdempotent(name);
    if |h| == 0 then [Field(LowerStr(name), value)]
    else if SameName(h[0].name, name) then
      var r := [Field(LowerStr(name), value)] + Without(h[1..], name);
      WithoutHasNone(h[1..], name);
      WithoutIdempotent(h[1..], name);
      assert r[1..] == Without(h[1..], name);
      r
    else
      var r := [h[0]] + Set(h[1..], name, value);
      assert r[1..] == Set(h[1..], name, value);
      r
  }

  /** After removing `name` no field with that name is left. */
  lemma {:induction false} WithoutHasNone(h: Fields, name: string)
    ensures Count(Without(h, name), name) == 0
    decreases |h|
  {
    if |h| > 0 {
      WithoutHasNone(h[1..], name);
      if !SameName(h[0].name, name) {
        assert ([h[0]] + Without(h[1..], name))[1..] == Without(h[1..], name);
      }
    }
  }

  /** Removing `name` twice is removing it once. */
  lemma {:induction false} WithoutIdempotent(h: Fields, name: string)
    ensures Without(Without(h, name), name) == Without(h, name)
    decreases |h|
  {
    if |h| > 0 {
      WithoutIdempotent(h[1..], name);
      if !SameName(h[0].name, name) {
        assert ([h[0]] + Without(h[1..], name))[1..] == Without(h[1..], name);
      }
    }
  }

  /** Removing one name does not change the lookup of any other name. */
  lemma {:induction false} GetWithout(h: Fields, name: string, other: string)
    requires !SameName(other, name)
    ensures Get(Without(h, name), other) == Get(h, other)
    decreases |h|
  {
    if |h| > 0 {
      GetWithout(h[1..], name, other);
      if !SameName(h[0].name, name) {
        assert ([h[0]] + Without(h[1..], name))[1..] == Without(h[1..], name);
      }
    }
  }

  /** Removals of two names commute. */
  lemma {:induction false} WithoutCommutes(h: Fields, a: string, b: string)
    ensures Without(Without(h, a), b) == Without(Without(h, b), a)
    decreases |h|
  {
    if |h| > 0 {
      WithoutCommutes(h[1..], a, b);
      var t := h[1..];
      if !SameName(h[0].name, a) {
        assert ([h[0]] + Without(t, a))[1..] == Without(t, a);
      }
      if !SameName(h[0].name, b) {
        assert ([h[0]] + Without(t, b))[1..] == Without(t, b);
      }
    }
  }

  /** The value found is that of the first field with the name: no earlier field has it. */
  lemma {:induction false} GetIsFirst(h: Fields, name: string)
    ensures Get(h, name).Some? ==>
      exists i :: 0 <= i < |h| && SameName(h[i].name, name) && Get(h, name).value == h[i].value
        && forall j :: 0 <= j < i ==> !SameName(h[j].name, name)
    decreases |h|
  {
    if |h| > 0 && !SameName(h[0].name, name) && Get(h, name).Some? {
      GetIsFirst(h[1..], name);
      var k :| 0 <= k < |h[1..]| && SameName(h[1..][k].name, name) && Get(h[1..], name).value == h[1..][k].value
        && forall j :: 0 <= j < k ==> !SameName(h[1..][j].name, name);
      assert h[k + 1] == h[1..][k];
      assert forall j :: 1 <= j < k + 1 ==> h[j] == h[1..][j - 1];
    }
  }

  /** Removing one name does not change the number of fields under any other name. */
  lemma {:induction false} CountWithout(h: Fields, name: string, other: string)
    requires !SameName(other, name)
    ensures Count(Without(h, name), other) == Count(h, other)
    decreases |h|
  {
    if |h| > 0 {
      CountWithout(h[1..], name, other);
      if !SameName(h[0].name, name) {
        assert ([h[0]] + Without(h[1..], name))[1..] == Without(h[1..], name);
      } else {
        assert !SameName(h[0].name, other);
      }
    }
  }

  /** Setting one header leaves the number of fields under every other name unchanged. */
  lemma SetKeepsOtherCounts(h: Fields, name: string, value: string, other: string)
    requires !SameName(other, name)
    ensures Count(Set(h, name, value), other) == Count(h, other)
  {
    CountWithout(Set(h, name, value), name, other);
    CountWithout(h, name, other);
  }

  /** Setting one header leaves the value of every differently named header as it was. */
  lemma SetKeepsOthers(h: Fields, name: string, value: string, other: string)
    requires !SameName(other, name)
    ensures Get(Set(h, name, value), other) == Get(h, other)
  {
    GetWithout(Set(h, name, value), name, other);
    GetWithout(h, name, other);
  }

  /** Setting a header is seen under every spelling of its name. */
  lemma SetAnySpelling(h: Fields, name: string, spelling: string, value: string)
    requires SameName(spelling, name)
    ensures Get(Set(h, name, value), spelling) == Some(value)
  {
    GetSameName(Set(h, name, value), name, spelling);
  }

  /** Lookups under two spellings of the same name agree. */
  lemma {:induction false} GetSameName(h: Fields, a: string, b: string)
    requires SameName(a, b)
    ensures Get(h, a) == Get(h, b)
    decreases |h|
  {
    if |h| > 0 {
      GetSameName(h[1..], a, b);
    }
  }
}

=== FILE: proxy.dfy ===
/**
 * One request end to end, up to the upstream call: the receiving handler's decision,
 * then either a local rejection (nothing is sent upstream) or the rewritten request.
 */
module Proxy {
  import opened Wrappers
  import opened Strings
  import opened Headers
  import opened Config
  import opened EnvFile
  import opened Rewrite
  import opened Dispatch

  /** What happens to a request: rejected locally, or forwarded as the given outbound request. */
  datatype Response = Rejected(status: int) | Forwarded(outbound: Outbound)

  /** The methods both routes are registered for; the framework answers any other with 405. */
  const RouteVerbs: set<string> := {"GET", "POST", "HEAD"}
  const MethodNotAllowed: int := 405

  /**
   * Serves a request on the given handler. A method the routes are not registered for
   * is answered 405 without reaching a handler. Otherwise the handler's rejection is
   * answered locally with its status, and a proxy decision is forwarded to the decided
   * upstream: same method and query, `host` the upstream netloc.
   */
  function Serve(handler: Handler, cfg: Settings, req: Request): (r: Response)
    ensures req.verb !in RouteVerbs ==> r == Rejected(MethodNotAllowed)
    ensures r.Rejected? ==> r.status in {Unauthorized, BadRequest, MethodNotAllowed}
    ensures req.verb in RouteVerbs ==> (r.Forwarded? <==> Handle(handler, cfg, req.headers).Proxy?)
    ensures req.verb in RouteVerbs && r.Rejected? ==> r.status == Handle(handler, cfg, req.headers).status
    ensures r.Forwarded? ==>
      && r.outbound.verb == req.verb
      && r.outbound.url.query == req.query
      && r.outbound.url.netloc == Handle(handler, cfg, req.headers).base.netloc
      && Get(r.outbound.headers, "host") == Some(r.outbound.url.netloc)
  {
    if req.verb !in RouteVerbs then Rejected(MethodNotAllowed)
    else
      match Handle(handler, cfg, req.headers)
      case Reject(status) => Rejected(status)
      case Proxy(base, key, strip) => Forwarded(RewriteRequest(req, base, key, strip))
  }

  /** Without an `authorization` header the generic handler forwards nothing and answers 401. */
  lemma GenericNeedsAuthorization(cfg: Settings, req: Request)
    requires Get(req.headers, "authorization") == None
    ensures Serve(Generic, cfg, req) == Rejected(if req.verb in RouteVerbs then Unauthorized else MethodNotAllowed)
  {
  }

  /**
   * On a route method the generic handler reads the first `authorization` field only: it
   * answers 401 exactly when that field is missing or does not hold exactly one space, and
   * 400 when it is well formed but its token names no generic route.
   */
  lemma GenericRejections(cfg: Settings, req: Request, scheme: string, token: string)
    requires req.verb in RouteVerbs
    ensures var a := Get(req.headers, "authorization");
      Serve(Generic, cfg, req) == Rejected(Unauthorized) <==> a.None? || CountChar(' ', a.value) != 1
    ensures (&& ' ' !in scheme && ' ' !in token
             && Get(req.headers, "authorization") == Some(scheme + " " + token)
             && token != OpenAiToken && token != CohereToken)
      ==> Serve(Generic, cfg, req) == Rejected(BadRequest)
  {
    CatchAllUnauthorized(cfg, Get(req.headers, "authorization"));
    if ' ' !in scheme && ' ' !in token {
      CatchAllTokens(cfg, scheme, token);
    }
  }

  /**
   * On a route method the hub handler reads the first `authorization` field only: it
   * answers 401 exactly when that field is present without exactly one space, and 400
   * when it is well formed but its token is not the hub's own.
   */
  lemma HfRejections(cfg: Settings, req: Request, scheme: string, token: string)
    requires req.verb in RouteVerbs
    ensures var a := Get(req.headers, "authorization");
      Serve(HuggingFace, cfg, req) == Rejected(Unauthorized) <==> a.Some? && CountChar(' ', a.value) != 1
    ensures (&& ' ' !in scheme && ' ' !in token
             && Get(req.headers, "authorization") == Some(scheme + " " + token)
             && token != HfToken)
      ==> Serve(HuggingFace, cfg, req) == Rejected(BadRequest)
  {
    HfCatchAllUnauthorized(cfg, Get(req.headers, "authorization"));
    if ' ' !in scheme && ' ' !in token {
      HfCatchAllTokens(cfg, scheme, token);
    }
  }

  /**
   * A request carrying the `openai` placeholder goes to the OpenAI API: host
   * `api.openai.com`, path `/v1/` followed by the inbound path, the query as it came,
   * and — when the secret is configured — `authorization: Bearer <secret>` in place of
   * the placeholder.
   */
  lemma OpenAiRequest(cfg: Settings, req: Request, scheme: string)
    requires req.verb in RouteVerbs
    requires ' ' !in scheme
    requires Get(req.headers, "authorization") == Some(scheme + " " + OpenAiToken)
    ensures Serve(Generic, cfg, req).Forwarded?
    ensures var o := Serve(Generic, cfg, req).outbound;
      && o.url == Url("https", "api.openai.com", "/v1/" + req.path, req.query)
      && Get(o.headers, "host") == Some("api.openai.com")
      && (cfg.openAiKey.Some? ==> Get(o.headers, "authorization") == Some("Bearer " + cfg.openAiKey.value))
      && (cfg.openAiKey.None? ==> Get(o.headers, "authorization") == Some(scheme + " " + OpenAiToken))
  {
    CatchAllTokens(cfg, scheme, OpenAiToken);
  }

  /**
   * A request carrying the `cohere` placeholder goes to the Cohere API: host
   * `api.cohere.ai`, the inbound path and query unchanged, and `authorization:
   * Bearer <secret>` when the secret is configured.
   */
  lemma CohereRequest(cfg: Settings, req: Request, scheme: string)
    requires req.verb in RouteVerbs
    requires ' ' !in scheme
    requires Get(req.headers, "authorization") == Some(scheme + " " + CohereToken)
    ensures Serve(Generic, cfg, req).Forwarded?
    ensures var o := Serve(Generic, cfg, req).outbound;
      && o.url == Url("https", "api.cohere.ai", req.path, req.query)
      && Get(o.headers, "host") == Some("api.cohere.ai")
      && (cfg.cohereKey.Some? ==> Get(o.headers, "authorization") == Some("Bearer " + cfg.cohereKey.value))
      && (cfg.cohereKey.None? ==> Get(o.headers, "authorization") == Some(scheme + " " + CohereToken))
  {
    CatchAllTokens(cfg, scheme, CohereToken);
    assert CohereBase.path + req.path == req.path;
  }

  /**
   * An anonymous request to the hub route is forwarded to `huggingface.co` with every
   * `/hf` deleted from its path and no `authorization` header added.
   */
  lemma HfAnonymousRequest(cfg: Settings, req: Request)
    requires req.verb in RouteVerbs
    requires Get(req.headers, "authorization") == None
    ensures Serve(HuggingFace, cfg, req).Forwarded?
    ensures var o := Serve(HuggingFace, cfg, req).outbound;
      && o.url == Url("https", "huggingface.co", RemoveAll(req.path, HfPrefix), req.query)
      && Get(o.headers, "host") == Some("huggingface.co")
      && Get(o.headers, "authorization") == None
  {
    assert HuggingFaceBase.path + RemoveAll(req.path, HfPrefix) == RemoveAll(req.path, HfPrefix);
  }

  /** On a path that is `/hf` followed by a remainder without `/hf`, the anonymous hub request goes to exactly that remainder. */
  lemma HfAnonymousPlainPath(cfg: Settings, req: Request, rest: string)
    requires req.verb in RouteVerbs
    requires Get(req.headers, "authorization") == None
    requires req.path == HfPrefix + rest && !Occurs(HfPrefix, rest)
    ensures Serve(HuggingFace, cfg, req).Forwarded?
    ensures Serve(HuggingFace, cfg, req).outbound.url == Url("https", "huggingface.co", rest, req.query)
  {
    HfAnonymousRequest(cfg, req);
    RemoveAllLeading(HfPrefix, rest);
  }

  /**
   * A hub request carrying the `hugging_face` placeholder is forwarded to
   * `huggingface.co` with every `/hf` deleted from its path and, when the secret is
   * configured, `authorization: Bearer <secret>`.
   */
  lemma HfKeyedRequest(cfg: Settings, req: Request, scheme: string)
    requires req.verb in RouteVerbs
    requires ' ' !in scheme
    requires Get(req.headers, "authorization") == Some(scheme + " " + HfToken)
    ensures Serve(HuggingFace, cfg, req).Forwarded?
    ensures var o := Serve(HuggingFace, cfg, req).outbound;
      && o.url == Url("https", "huggingface.co", RemoveAll(req.path, HfPrefix), req.query)
      && Get(o.headers, "host") == Some("huggingface.co")
      && (cfg.hfKey.Some? ==> Get(o.headers, "authorization") == Some("Bearer " + cfg.hfKey.value))
      && (cfg.hfKey.None? ==> Get(o.headers, "authorization") == Some(scheme + " " + HfToken))
  {
    HfCatchAllTokens(cfg, scheme, HfToken);
    assert HuggingFaceBase.path + RemoveAll(req.path, HfPrefix) == RemoveAll(req.path, HfPrefix);
  }

  /**
   * Whenever a secret is substituted, the placeholder the client sent never reaches the
   * upstream: the one and only outbound `authorization` field is the secret's bearer value.
   */
  lemma SecretReplacesPlaceholder(handler: Handler, cfg: Settings, req: Request)
    ensures var d := Handle(handler, cfg, req.headers);
      req.verb in RouteVerbs && d.Proxy? && d.key.Some? ==>
        && Get(Serve(handler, cfg, req).outbound.headers, "authorization") == Some("Bearer " + d.key.value)
        && Count(Serve(handler, cfg, req).outbound.headers, "authorization") == 1
  {
  }

  /**
   * The generated environment file and the handlers agree: every placeholder written to
   * it, sent as `Bearer <placeholder>`, is routed with the matching real secret.
   */
  lemma ExportedPlaceholdersRoute(cfg: Settings)
    ensures Find(UserEnv(cfg), "OPENAI_API_KEY").Some? ==>
      CatchAll(cfg, Some("Bearer " + Find(UserEnv(cfg), "OPENAI_API_KEY").value)) == Proxy(OpenAiBase, cfg.openAiKey, None)
    ensures Find(UserEnv(cfg), "CO_API_KEY").Some? ==>
      CatchAll(cfg, Some("Bearer " + Find(UserEnv(cfg), "CO_API_KEY").value)) == Proxy(CohereBase, cfg.cohereKey, None)
    ensures Find(UserEnv(cfg), "HF_API_KEY").Some? ==>
      HfCatchAll(cfg, Some("Bearer " + Find(UserEnv(cfg), "HF_API_KEY").value)) == Proxy(HuggingFaceBase, cfg.hfKey, Some(HfPrefix))
  {
    UserEnvContents(cfg);
    assert "Bearer " + OpenAiToken == "Bearer" + " " + OpenAiToken;
    assert "Bearer " + CohereToken == "Bearer" + " " + CohereToken;
    assert "Bearer " + HfToken == "Bearer" + " " + HfToken;
    CatchAllTokens(cfg, "Bearer", OpenAiToken);
    CatchAllTokens(cfg, "Bearer", CohereToken);
    HfCatchAllTokens(cfg, "Bearer", HfToken);
  }
}

=== FILE: rewrite.dfy ===
/**
 * The request rewriting done before the upstream call: the new path (with a prefix
 * optionally stripped), the upstream URL, and the `host` / `authorization` headers.
 * URLs are given already parsed; the body stream is not modelled.
 */
module Rewrite {
  import opened Wrappers
  import opened Strings
  import opened Headers

  /** An upstream base URL parsed into scheme, network location and path. */
  datatype BaseUrl = BaseUrl(scheme: string, netloc: string, path: string)

  /** A target URL: scheme, network location, path and raw query string. */
  datatype Url = Url(scheme: string, netloc: string, path: string, query: string)

  /** The parts of an inbound request the rewriting reads. */
  datatype Request = Request(verb: string, path: string, query: string, headers: Fields)

  /** The request sent upstream (its body is the inbound body, forwarded as a stream). */
  datatype Outbound = Outbound(verb: string, url: Url, headers: Fields)

  /** The text of a base URL: `scheme://netloc` followed by its path. */
  function BaseText(b: BaseUrl): string {
    b.scheme + "://" + b.netloc + b.path
  }

  /**
   * The path sent upstream: the inbound path with every occurrence of the strip prefix
   * deleted (Python `path.replace(prefix, "")`), or unchanged when there is no prefix.
   */
  function StripPath(path: string, strip: Option<string>): (p: string)
    ensures strip.None? ==> p == path
    ensures strip.Some? && |strip.value| > 0 ==> p == Join(Split(path, strip.value), "")
    ensures strip.Some? && !Occurs(strip.value, path) ==> p == path
    ensures |p| <= |path|
  {
    match strip
    case None => path
    case Some(prefix) =>
      RemoveAllFacts(path, prefix);
      RemoveAll(path, prefix)
  }

  /** The replacement in its split-join form. */
  lemma RemoveAllFacts(path: string, prefix: string)
    ensures |prefix| > 0 ==> RemoveAll(path, prefix) == Join(Split(path, prefix), "")
  {
    if |prefix| > 0 {
      RemoveAllIsSplitJoin(path, prefix);
    }
  }

  /**
   * The headers sent upstream: `host` set to the upstream netloc, `authorization` to the
   * secret when there is one. The outbound `host` is the netloc whatever came in, in a
   * single field; the outbound `authorization` is a single `Bearer <key>` field with a
   * key, replacing every inbound one, and without one every field other than `host`
   * (every inbound `authorization` among them) is kept as it was, in order.
   */
  function RewriteHeaders(h: Fields, netloc: string, key: Option<string>): (r: Fields)
    ensures Get(r, "host") == Some(netloc)
    ensures key.Some? ==> Get(r, "authorization") == Some("Bearer " + key.value)
    ensures key.None? ==> Get(r, "authorization") == Get(h, "authorization")
    ensures Count(r, "host") == 1
    ensures key.Some? ==> Count(r, "authorization") == 1
    ensures key.None? ==> Count(r, "authorization") == Count(h, "authorization")
    ensures key.None? ==> Without(r, "host") == Without(h, "host")
  {
    var withHost := Set(h, "host", netloc);
    HostIsNotAuthorization();
    if key.Some? then
      SetKeepsOthers(withHost, "authorization", "Bearer " + key.value, "host");
      SetKeepsOtherCounts(withHost, "authorization", "Bearer " + key.value, "host");
      Set(withHost, "authorization", "Bearer " + key.value)
    else
      SetKeepsOthers(h, "host", netloc, "authorization");
      SetKeepsOtherCounts(h, "host", netloc, "authorization");
      withHost
  }

  /** The outbound request for an inbound one sent to `base` with an optional secret and strip prefix. */
  function RewriteRequest(req: Request, base: BaseUrl, key: Option<string>, strip: Option<string>): (o: Outbound)
    ensures o.verb == req.verb
    ensures o.url.scheme == base.scheme && o.url.netloc == base.netloc
    ensures o.url.query == req.query
    ensures base.path <= o.url.path
    ensures o.url.path[|base.path|..] == StripPath(req.path, strip)
    ensures strip.None? ==> o.url.path == base.path + req.path
  {
    var path := base.path + StripPath(req.path, strip);
    assert path[|base.path|..] == StripPath(req.path, strip);
    Outbound(req.verb, Url(base.scheme, base.netloc, path, req.query), RewriteHeaders(req.headers, base.netloc, key))
  }

  /** `host` and `authorization` are different header names. */
  lemma HostIsNotAuthorization()
    ensures !SameName("host", "authorization") && !SameName("authorization", "host")
  {
    assert |LowerStr("host")| != |LowerStr("authorization")|;
  }

  /** Every header other than `host` and `authorization` keeps its inbound value. */
  lemma RewriteKeepsOthers(h: Fields, netloc: string, key: Option<string>, n: string)
    requires !SameName(n, "host") && !SameName(n, "authorization")
    ensures Get(RewriteHeaders(h, netloc, key), n) == Get(h, n)
  {
    SetKeepsOthers(h, "host", netloc, n);
    if key.Some? {
      SetKeepsOthers(Set(h, "host", netloc), "authorization", "Bearer " + key.value, n);
    }
  }

  /** Apart from `host` and `authorization`, the outbound fields are the inbound ones, in order and with duplicates. */
  lemma RewriteKeepsOtherFields(h: Fields, netloc: string, key: Option<string>)
    ensures Without(Without(RewriteHeaders(h, netloc, key), "host"), "authorization")
      == Without(Without(h, "host"), "authorization")
  {
    if key.Some? {
      var withHost := Set(h, "host", netloc);
      var r := Set(withHost, "authorization", "Bearer " + key.value);
      WithoutCommutes(r, "host", "authorization");
      WithoutCommutes(withHost, "host", "authorization");
    }
  }

  /** Removing a leading prefix: the corrected stripping for a route mounted under `prefix`. */
  function StripLeading(path: string, prefix: string): (p: string)
    ensures prefix <= path ==> prefix + p == path
    ensures !(prefix <= path) ==> p == path
  {
    if prefix <= path then path[|prefix|..] else path
  }

  /** On a path that is the prefix followed by a remainder free of it, both strippings agree. */
  lemma StripAgreesOnPlainPaths(prefix: string, rest: string)
    requires |prefix| > 0 && !Occurs(prefix, rest)
    ensures StripPath(prefix + rest, Some(prefix)) == StripLeading(prefix + rest, prefix) == rest
  {
    RemoveAllLeading(prefix, rest);
    assert (prefix + rest)[|prefix|..] == rest;
  }

  /**
   * Stripping `/hf` by deleting every occurrence mangles a hub path that names a
   * repository owner starting with `hf`: the owner's own `/hf` is deleted too, and the
   * owner is glued onto the path segment before it.
   */
  lemma StripManglesOwner()
    ensures StripPath("/hf/api/models/hf-internal-testing/tiny", Some("/hf"))
      == "/api/models-internal-testing/tiny"
    ensures StripLeading("/hf/api/models/hf-internal-testing/tiny", "/hf")
      == "/api/models/hf-internal-testing/tiny"
  {
    OwnerPathText();
    OwnerDeletedText();
    OwnerKeptText();
    RemoveOwnerPrefix();
  }

  // Proof scaffolding: the three literal lemmas below only spell out concatenations of
  // string literals, so that the solver need not unfold them inside `RemoveOwnerPrefix`.

  /** The example path, spelled out from its pieces. */
  lemma OwnerPathText()
    ensures "/hf" + ("/api" + ("/models" + ("/hf" + ("-internal-testing" + "/tiny"))))
      == "/hf/api/models/hf-internal-testing/tiny"
  {
  }

  /** The stripping by deletion of the example path, spelled out from its pieces. */
  lemma OwnerDeletedText()
    ensures "/api" + ("/models" + ("-internal-testing" + "/tiny")) == "/api/models-internal-testing/tiny"
  {
  }

  /** The leading-only stripping of the example path, spelled out from its pieces. */
  lemma OwnerKeptText()
    ensures "/api" + ("/models" + ("/hf" + ("-internal-testing" + "/tiny")))
      == "/api/models/hf-internal-testing/tiny"
  {
  }

  /** Both strippings of the example path, on its pieces. */
  lemma RemoveOwnerPrefix()
    ensures var p := "/hf" + ("/api" + ("/models" + ("/hf" + ("-internal-testing" + "/tiny"))));
      && RemoveAll(p, "/hf") == "/api" + ("/models" + ("-internal-testing" + "/tiny"))
      && StripLeading(p, "/hf") == "/api" + ("/models" + ("/hf" + ("-internal-testing" + "/tiny")))
  {
    var x1, x2, h, t1, t2 := "/api", "/models", "/hf", "-internal-testing", "/tiny";
    var r := x1 + (x2 + (h + (t1 + t2)));
    assert RemoveAll(h + r, h) == RemoveAll(r, h) by {
      RemoveAllLeadingOnce(h, r);
    }
    assert RemoveAll(r, h) == x1 + RemoveAll(x2 + (h + (t1 + t2)), h) by {
      RemoveAllSkipsStretch(x1, x2 + (h + (t1 + t2)), h);
    }
    assert RemoveAll(x2 + (h + (t1 + t2)), h) == x2 + RemoveAll(h + (t1 + t2), h) by {
      RemoveAllSkipsStretch(x2, h + (t1 + t2), h);
    }
    assert RemoveAll(h + (t1 + t2), h) == RemoveAll(t1 + t2, h) by {
      RemoveAllLeadingOnce(h, t1 + t2);
    }
    assert RemoveAll(t1 + t2, h) == t1 + RemoveAll(t2, h) by {
      RemoveAllSkipsFree(t1, t2, h);
    }
    assert RemoveAll(t2, h) == t2 by {
      RemoveAllSkipsStretch(t2, "", h);
      assert t2 + "" == t2;
    }
    assert (h + r)[|h|..] == r;
  }

  /** Deleting every occurrence can join the pieces around one into a new occurrence. */
  lemma StripCanLeavePrefix()
    ensures Occurs("/hf", StripPath("/h/hff", Some("/hf")))
  {
    var p := "/h/hff";
    assert p[2] == '/';
    assert !("/hf" <= p);
    assert p[1..] == "h/hff";
    assert !("/hf" <= p[1..]);
    assert p[1..][1..] == "/hff";
    assert "/hf" <= p[1..][1..];
    assert p[1..][1..][3..] == "f";
    assert !("/hf" <= "f");
    assert "f"[1..] == "";
    assert RemoveAll("f", "/hf") == "f";
    assert RemoveAll(p, "/hf") == "/hf";
  }
}

=== FILE: strings.dfy ===
/**
 * The three Python string operations the proxy relies on, over `string = seq<char>`:
 * `s.split(sep)` with an explicit separator, `sep.join(parts)` and `s.replace(pat, "")`.
 * All scan left to right and match non-overlapping occurrences.
 */
module Strings {

  /** `pat` occurs somewhere in `s` as a contiguous substring (Python `pat in s`). */
  predicate Occurs(pat: string, s: string)
    decreases |s|
  {
    pat <= s || (|s| > 0 && Occurs(pat, s[1..]))
  }

  /** Number of occurrences of the character `c` in `s`. */
  function CountChar(c: char, s: string): nat
    decreases |s|
  {
    if |s| == 0 then 0 else (if s[0] == c then 1 else 0) + CountChar(c, s[1..])
  }

  /**
   * Python `s.split(sep)` for a non-empty `sep`: the pieces between the leftmost
   * non-overlapping occurrences of `sep`. Empty pieces are kept, so the result has
   * one piece more than there are matches.
   */
  function Split(s: string, sep: string): (parts: seq<string>)
    requires |sep| > 0
    ensures |parts| >= 1
    ensures Join(parts, sep) == s
    decreases |s|
  {
    if |s| == 0 then [""]
    else if sep <= s then
      var p := Split(s[|sep|..], sep);
      JoinAfterEmpty(p, sep);
      assert s == sep + s[|sep|..];
      [""] + p
    else
      var rest := Split(s[1..], sep);
      JoinExtendFirst([s[0]], rest, sep);
      assert s == [s[0]] + s[1..];
      [[s[0]] + rest[0]] + rest[1..]
  }

  /** Python `sep.join(parts)`. */
  function Join(parts: seq<string>, sep: string): string
    decreases |parts|
  {
    if |parts| == 0 then ""
    else if |parts| == 1 then parts[0]
    else parts[0] + sep + Join(parts[1..], sep)
  }

  /**
   * Python `s.replace(pat, "")`: deletes every non-overlapping occurrence of `pat`,
   * scanning left to right; an empty `pat` leaves `s` as it is.
   */
  function RemoveAll(s: string, pat: string): (r: string)
    ensures |r| <= |s|
    ensures !Occurs(pat, s) ==> r == s
    decreases |s|
  {
    if |pat| == 0 || |s| == 0 then s
    else if pat <= s then RemoveAll(s[|pat|..], pat)
    else
      assert s == [s[0]] + s[1..];
      [s[0]] + RemoveAll(s[1..], pat)
  }

  /** Joining after a leading empty piece puts one separator in front. */
  lemma JoinAfterEmpty(p: seq<string>, sep: string)
    requires |p| >= 1
    ensures Join([""] + p, sep) == sep + Join(p, sep)
  {
    assert ([""] + p)[1..] == p;
  }

  /** Extending the first piece extends the joined text by the same prefix. */
  lemma JoinExtendFirst(x: string, p: seq<string>, sep: string)
    requires |p| >= 1
    ensures Join([x + p[0]] + p[1..], sep) == x + Join(p, sep)
  {
    var q := [x + p[0]] + p[1..];
    assert q[1..] == p[1..];
    if |p| > 1 {
      assert Join(q, sep) == x + p[0] + sep + Join(p[1..], sep);
    }
  }

  /** The first piece of a split is a prefix of the split string. */
  lemma {:induction false} SplitFirstIsPrefix(s: string, sep: string)
    requires |sep| > 0
    ensures Split(s, sep)[0] <= s
    decreases |s|
  {
    if |s| == 0 {
    } else if sep <= s {
    } else {
      SplitFirstIsPrefix(s[1..], sep);
      var rest := Split(s[1..], sep);
      assert Split(s, sep)[0] == [s[0]] + rest[0];
      assert s == [s[0]] + s[1..];
    }
  }

  /** A prefix of a string that does not start with `pat` does not start with `pat` either. */
  lemma PrefixOfPrefix(pat: string, p: string, s: string)
    requires p <= s
    requires !(pat <= s)
    ensures !(pat <= p)
  {
  }

  /** No piece of a split contains the separator. */
  lemma {:induction false} SplitPartsAreFree(s: string, sep: string)
    requires |sep| > 0
    ensures forall i :: 0 <= i < |Split(s, sep)| ==> !Occurs(sep, Split(s, sep)[i])
    decreases |s|
  {
    var parts := Split(s, sep);
    if |s| == 0 {
      assert parts == [""];
      assert !Occurs(sep, "");
    } else if sep <= s {
      SplitPartsAreFree(s[|sep|..], sep);
      var p := Split(s[|sep|..], sep);
      assert parts == [""] + p;
      assert !Occurs(sep, "");
      forall i | 0 <= i < |parts|
        ensures !Occurs(sep, parts[i])
      {
        if i > 0 {
          assert parts[i] == p[i - 1];
        }
      }
    } else {
      SplitPartsAreFree(s[1..], sep);
      SplitFirstIsPrefix(s, sep);
      var rest := Split(s[1..], sep);
      var first := [s[0]] + rest[0];
      assert parts == [first] + rest[1..];
      assert first[1..] == rest[0];
      PrefixOfPrefix(sep, first, s);
      assert !Occurs(sep, first);
      forall i | 0 <= i < |parts|
        ensures !Occurs(sep, parts[i])
      {
        if i > 0 {
          assert parts[i] == rest[i];
        }
      }
    }
  }

  /** A string without the separator splits into itself alone. */
  lemma {:induction false} SplitWithoutSeparator(s: string, sep: string)
    requires |sep| > 0
    requires !Occurs(sep, s)
    ensures Split(s, sep) == [s]
    decreases |s|
  {
    if |s| > 0 {
      assert !(sep <= s);
      SplitWithoutSeparator(s[1..], sep);
      assert Split(s, sep) == [[s[0]] + s[1..]];
      assert s == [s[0]] + s[1..];
    }
  }

  /** Splitting on a one-character separator yields one piece more than there are separators. */
  lemma {:induction false} SplitCharCount(s: string, c: char)
    ensures |Split(s, [c])| == CountChar(c, s) + 1
    decreases |s|
  {
    if |s| == 0 {
    } else if [c] <= s {
      SplitCharCount(s[1..], c);
      assert s[0] == c;
    } else {
      SplitCharCount(s[1..], c);
      assert s[0] != c;
    }
  }

  /** A one-character pattern occurs in `s` exactly when the character is in `s`. */
  lemma {:induction false} OccursChar(c: char, s: string)
    ensures Occurs([c], s) <==> c in s
    decreases |s|
  {
    if |s| > 0 {
      OccursChar(c, s[1..]);
      assert s == [s[0]] + s[1..];
    }
  }

  /** A string whose first `c` follows `a` splits into `a` and the pieces of what follows. */
  lemma {:induction false} SplitAtFirstChar(a: string, c: char, b: string)
    requires c !in a
    ensures Split(a + [c] + b, [c]) == [a] + Split(b, [c])
    decreases |a|
  {
    var s := a + [c] + b;
    if |a| == 0 {
      assert s == [c] + b;
      assert [c] <= s;
      assert s[1..] == b;
    } else {
      assert s[0] == a[0] && a[0] != c;
      assert !([c] <= s);
      assert s[1..] == a[1..] + [c] + b;
      SplitAtFirstChar(a[1..], c, b);
      assert [a[0]] + a[1..] == a;
    }
  }

  /** `a + [c] + b`, with `c` in neither side, splits on `c` into exactly `[a, b]`. */
  lemma SplitAroundChar(a: string, c: char, b: string)
    requires c !in a && c !in b
    ensures Split(a + [c] + b, [c]) == [a, b]
  {
    SplitAtFirstChar(a, c, b);
    OccursChar(c, b);
    SplitWithoutSeparator(b, [c]);
  }

  /** Removing every occurrence of `pat` is joining the pieces of a split on `pat` with nothing. */
  lemma {:induction false} RemoveAllIsSplitJoin(s: string, pat: string)
    requires |pat| > 0
    ensures RemoveAll(s, pat) == Join(Split(s, pat), "")
    decreases |s|
  {
    if |s| == 0 {
    } else if pat <= s {
      RemoveAllIsSplitJoin(s[|pat|..], pat);
      JoinAfterEmpty(Split(s[|pat|..], pat), "");
    } else {
      RemoveAllIsSplitJoin(s[1..], pat);
      JoinExtendFirst([s[0]], Split(s[1..], pat), "");
    }
  }

  /** Removing `pat` from `pat + rest`, when `rest` has no `pat`, gives exactly `rest`. */
  lemma RemoveAllLeading(pat: string, rest: string)
    requires |pat| > 0
    requires !Occurs(pat, rest)
    ensures RemoveAll(pat + rest, pat) == rest
  {
    assert pat <= pat + rest;
    assert (pat + rest)[|pat|..] == rest;
  }

  /** A stretch without the pattern's first character is kept, and the removal goes on after it. */
  lemma {:induction false} RemoveAllSkipsFree(a: string, b: string, pat: string)
    requires |pat| > 0 && pat[0] !in a
    ensures RemoveAll(a + b, pat) == a + RemoveAll(b, pat)
    decreases |a|
  {
    if |a| > 0 {
      var s := a + b;
      assert s[0] == a[0];
      assert !(pat <= s);
      assert s[1..] == a[1..] + b;
      RemoveAllSkipsFree(a[1..], b, pat);
      assert a == [a[0]] + a[1..];
    } else {
      assert a + b == b;
    }
  }

  /**
   * A stretch whose second character already differs from the pattern's second one, and
   * whose rest lacks the pattern's first character, is kept as it is.
   */
  lemma RemoveAllSkipsStretch(x: string, b: string, pat: string)
    requires |pat| >= 2 && |x| >= 2 && x[1] != pat[1] && pat[0] !in x[1..]
    ensures RemoveAll(x + b, pat) == x + RemoveAll(b, pat)
  {
    var s := x + b;
    assert !(pat <= s) by {
      assert s[1] == x[1];
    }
    assert RemoveAll(s, pat) == [x[0]] + RemoveAll(x[1..] + b, pat) by {
      assert s[1..] == x[1..] + b;
    }
    RemoveAllSkipsFree(x[1..], b, pat);
    assert x == [x[0]] + x[1..];
  }

  /** A leading pattern is removed and the removal goes on after it. */
  lemma RemoveAllLeadingOnce(pat: string, rest: string)
    requires |pat| > 0
    ensures RemoveAll(pat + rest, pat) == RemoveAll(rest, pat)
  {
    assert pat <= pat + rest;
    assert (pat + rest)[|pat|..] == rest;
  }
}

=== FILE: wrappers.dfy ===
/** Optional values: Python's `Optional[str]`, where `None` is an absent value. */
module Wrappers {

  datatype Option<+T> = None | Some(value: T) {

    /** The held value, or `default` when there is none. */
    function GetOr(default: T): T {
      match this
      case Some(v) => v
      case None => default
    }
  }

  /** Python's `if x is None: x = y` — keep `first` when present, otherwise fall back to `second`. */
  function OrElse<T>(first: Option<T>, second: Option<T>): (r: Option<T>)
    ensures first.Some? ==> r == first
    ensures first.None? ==> r == second
    ensures r.None? <==> first.None? && second.None?
  {
    if first.Some? then first else second
  }
}
